=== FILE: README.md ===
# OpenPGP key generation and self-certification, modelled in Dafny

This project models the key-generation and self-certification core of the
rpgp OpenPGP library (`src/key.rs`). The core has five parts:

- **Configuration builders.** The primary-key builder checks its policy when it
  is finalised: no RSA key below 2048 bits, no EdDSA key that encrypts, and no
  ECDH key that signs. `user_id` and `subkey` append to their lists.
- **Key assembly.** It produces an unsigned secret key. Key flags come from the
  capability booleans, user ids are carried over in order, and there is one
  secret subkey per subkey configuration. The public-subkey list is empty and
  key lifetimes are cut to 16 bits.
- **Key material.** RSA material comes from an opaque prime search. A
  Curve25519 ECDH key stores its point with a 0x40 tag and its scalar in
  reversed byte order. An Ed25519 EdDSA key splits its 64-byte keypair.
- **Secret protection.** Without a passphrase the secret is stored `Plain`.
  With one it is `Encrypted` under AES-256 with string-to-key usage octet 254.
- **Self-certification.** The primary user id and each additional user id get
  a generic certification (signature type 0x10). The primary's hashed area is
  fixed and holds an optional revocation key. Every subkey gets one
  subkey-binding signature (type 0x18). Composed signing keeps list order, and
  any single failure fails the whole call.

Randomness, curve arithmetic, RSA prime search, string-to-key derivation,
symmetric encryption, hash-then-sign, key-id and fingerprint derivation, and
user-attribute signing are all collaborators. They are passed in as function
values: `KeyGen.Entropy` (one acquisition of the system random source),
`KeyGen.Backend` and `Certify.Signing`. The clock is a `now` parameter. The
passphrase callback is modelled as the string it returns.

Modules: `Wrappers` (Option/Result), `Seqs` (all-or-nothing mapping,
reversal), `Types` (algorithms, packets, subpackets, errors), `Flags` (key
flags and their octet), `KeyGen`, `Params`, `Key` (unsigned keys and
assembly), `Certify` (signing), `Recover` (reading the certified data back,
which is the partner of signing).

Only the primary-key builder has a validation hook (`src/key.rs:267-268`).
The subkey builder (`src/key.rs:315-340`) checks only that the key type is
set, so a subkey configuration with EdDSA and encryption finalises even
though the same combination is rejected for a primary key.
`Params.SubkeyBuildAcceptsForbidden` shows this.

## Model

| member | source | states |
|---|---|---|
| Seqs.CollectMap | src/key.rs:108-143 | Collecting per-element results into one result either succeeds with every output, in input order, or reports the error of the first failing element. No partial list survives. |
| Seqs.CollectMapFrom | src/key.rs:428-455 | The same all-or-nothing collection with each element's position, counted from a start index, passed to the step: success iff every step succeeds, output i is the step's value at position start+i, and a failure is the first failing position's error. |
| Seqs.Reverse | src/key.rs:523-524 | The reversed byte string has the same length, and position i holds the element at position n-1-i. |
| Flags.FromCapabilities | src/key.rs:405-409 | The derived flags are: certify iff the certificate capability, sign iff the signing capability, and both encrypt-communications and encrypt-storage iff the encryption capability. Nothing else is set. |
| Flags.CapabilityBits | src/key.rs:405-409 | The flags octet of derived flags has bit 0x01 iff certify, 0x02 iff sign, 0x04 and 0x08 iff encrypt, and no bit above 0x08 (section 5.2.3.21 of RFC 4880). |
| Flags.OctetsRoundTrip | src/key.rs:68 | Decoding the octets of a key-flags subpacket gives back the flags that were encoded. |
| Flags.OctetCanonical | src/key.rs:68 | Encoding decoded flags reproduces the octet, except for the unassigned bit 0x40. |
| KeyGen.ToAlg | src/key.rs:471-477 | Every RSA size maps to RSA, ECDH to ECDH and EdDSA to EdDSA, each in both directions. `KeyGen.GenerateMaterial` ties this identifier to the generated public parameters. |
| KeyGen.GenerateRsaKey | src/key.rs:479-507 | RSA material fails exactly when the prime search fails, with its error. On success the public parameters are the search's (n, e) and the secret is its (d, p, q, u). |
| KeyGen.GenerateEcdhKey | src/key.rs:509-536 | The ECDH public buffer is 33 bytes: 0x40, then the x25519 point of the secret. The curve is Curve25519 with SHA-256 and AES-128. The secret is the 32-byte scalar with byte i equal to scalar byte 31-i. |
| KeyGen.EcdhSecretRecoversScalar | src/key.rs:515-524 | Reversing the stored ECDH secret gives back the x25519 scalar. |
| KeyGen.GenerateEddsaKey | src/key.rs:538-560 | The EdDSA public buffer is 33 bytes: 0x40, then keypair bytes 32..64, on Ed25519. The secret is keypair bytes 0..32. |
| KeyGen.EddsaSplitReassembles | src/key.rs:542-551 | The EdDSA secret followed by the untagged public point is the whole 64-byte keypair. |
| KeyGen.GenerateMaterial | src/key.rs:568-572 | The material is exactly the output of the key type's generator: the RSA prime search for RSA, the ECDH layout for ECDH and the EdDSA split for EdDSA. Only RSA generation can fail. The public parameters belong to the algorithm `to_alg` names for the key type. |
| KeyGen.Protect | src/key.rs:574-595 | With no passphrase the secret is `Plain` and unchanged. With a passphrase it is `Encrypted` with AES-256, usage octet 254, the fresh string-to-key specifier, the default key version and the fresh random bytes. Its ciphertext is the encryption of exactly the given plain secret, and it fails exactly when encryption fails. |
| KeyGen.Generate | src/key.rs:562-598 | Generation succeeds iff the material does and its protection does. The public parameters are the generated material's, and the secret is that material's own plain secret after protection, so an encrypted key always encrypts its own secret. Only an RSA key or a passphrase can make generation fail. The public parameters match `to_alg`. The secret is `Plain` iff there is no passphrase, and when encrypted it uses AES-256 and usage octet 254. |
| KeyGen.PlainSecretUnchanged | src/key.rs:594 | Without a passphrase, generation succeeds whenever the material does, and the secret is the generator's plain secret. |
| KeyGen.CurvePublicLayout | src/key.rs:518-521 | A generated ECDH or EdDSA key has a 33-byte public buffer that starts with 0x40. |
| Params.Validate | src/key.rs:342-368 | Validation fails exactly when a set key type, with the capabilities that are set to true, is forbidden by the policy (`Params.Forbidden`): RSA below 2048 bits, EdDSA with encryption, or ECDH with signing. Every other input passes, including an unset key type. Each failure is a validation error. |
| Params.AddUserId | src/key.rs:370-377 | The user-id list gains exactly one entry, `v`, at its end (or becomes `[v]`). Earlier entries stay as a prefix and no other field changes. |
| Params.AddSubkey | src/key.rs:379-386 | The subkey list gains exactly one entry, `v`, at its end (or becomes `[v]`). Earlier entries stay as a prefix and no other field changes. |
| Params.AddUserIdsAppends | src/key.rs:370-377 | Repeated `user_id` calls leave the user-id list as the original entries followed by the added ones, in call order. |
| Params.AddSubkeysAppends | src/key.rs:379-386 | Repeated `subkey` calls leave the subkey list as the original entries followed by the added ones, in call order. |
| Params.Build | src/key.rs:267-313 | Finalising runs validation first, then requires the key type, then the primary user id. It succeeds iff all three hold, and a missing field is reported by its name. Key type, primary user id, user ids and subkeys are the builder's. Capabilities are true only when set to true. Every other field is the builder's value when set, and otherwise its default: empty lists, no revocation key, no passphrase, creation at now, packet format Old, key version 4, no expiration. |
| Params.BuildEnforcesPolicy | src/key.rs:267-268 | Every finalised primary-key configuration avoids all three forbidden algorithm/capability combinations. |
| Params.BuildSubkey | src/key.rs:315-340 | A subkey configuration finalises iff its key type is set, with no policy check. Capabilities are true only when set to true. Every other field is the builder's value when set, and otherwise the same default as for the primary key. |
| Params.SubkeyBuildAcceptsForbidden | src/key.rs:315-316 | A subkey configuration with EdDSA and encryption, which the primary-key policy forbids, still finalises. |
| Key.PacketExpiration | src/key.rs:399 | A lifetime is present iff one was configured. It is congruent to the configured seconds modulo 65536, and it equals them when they fit in 16 bits. |
| Key.GenerateSubkey | src/key.rs:431-453 | A subkey fails iff its material generation fails, with that error. Its flags come from its own capabilities, and its packet carries `to_alg`, its creation time, its truncated lifetime and its versions. Its public and secret parameters are exactly those `KeyType::generate` produced from its key type, passphrase and random draw. |
| Key.GenerateSubkeys | src/key.rs:428-455 | The subkey list succeeds iff every subkey does. It has one entry per configuration, entry i generated from configuration i and random draw first+i. A failure is the first failing subkey's error. |
| Key.GenerateKey | src/key.rs:390-457 | The key succeeds iff the primary and every subkey generate, and a primary failure is returned as is. The public-subkey list is empty, with one secret subkey per configuration. The primary's algorithm matches `to_alg`, its public and secret parameters are exactly those generated from random draw 0, and its versions, creation time and truncated lifetime are the configuration's. Flags come from the capabilities, user ids map in order, preferences, attributes and revocation key carry over, and the lifetime is truncated. Secret subkey i is exactly the subkey generated from configuration i and draw i+1, and a subkey failure reports the first failing subkey's error. |
| Key.GeneratedSubkeysFollowConfig | src/key.rs:431-453 | Secret subkey i of a generated key has configuration i's algorithm, flags (derived as for the primary), creation time, truncated lifetime, packet format and key version. Its parameters are exactly those generated from draw i+1. It is `Plain` iff that configuration has no passphrase. |
| Key.SubkeyFailureFailsKey | src/key.rs:428-455 | If any one subkey fails to generate, the whole key fails. |
| Certify.SignKeyDetails | src/key.rs:64-151 | Signing the details succeeds iff every certification and attribute signature does, and a failure returns the error of the first failing step. The order is the primary user id, then the additional ids in order, then the attributes in order. The result has no revocation or direct signatures, 1 + n users with the primary first and the additional ids in order, and one signed attribute per attribute in order. |
| Certify.SignedDetailsSubpackets | src/key.rs:74-137 | Each user has one generic certification (type 0x10) by the signer, with unhashed area [Issuer, IssuerFingerprint]. Its material is what the signing routine computes over that user id under that configuration. The primary's hashed area is [IsPrimary(true), CreationTime, KeyFlags, PrefSym, PrefHash, PrefComp], followed by RevocationKey only when present. Each additional id's hashed area is the primary's without IsPrimary, and it has no RevocationKey. |
| Certify.SignPublicSubkey | src/key.rs:179-207 | It fails iff signing fails. The key is unchanged and carries exactly one subkey-binding signature (type 0x18) by the signer, with hashed area [CreationTime, KeyFlags] and unhashed area [Issuer, IssuerFingerprint]. Its material is what the signing routine computes over the subkey packet under that configuration. |
| Certify.SignSecretSubkey | src/key.rs:237-264 | The same as for a public subkey, with the signature made over the secret subkey packet. |
| Certify.SignPublicKey | src/key.rs:154-176 | It succeeds iff the details and every public subkey sign. A failure returns the details' error, or else the first failing public subkey's error. The primary key is unchanged, and the subkey list keeps its length and order. |
| Certify.SignSecretKey | src/key.rs:210-234 | The secret key signs itself with its primary key. It succeeds iff the details, every public subkey and every secret subkey sign. A failure returns the first failing step's error, in the order details, then public subkeys, then secret subkeys. The primary key is unchanged and both lists keep their length and order. |
| Recover.DetailsRoundTrip | src/key.rs:64-151 | The details recovered from certified details are the details that were certified: ids, order, flags, preferences, revocation key and attributes. This assumes the attribute-signing routine returns the attribute it signed (`AttributesKept`). |
| Recover.PublicSubkeyRoundTrip | src/key.rs:179-207 | The public subkey recovered from its binding-signed form is the original subkey, flags included. |
| Recover.SecretSubkeyRoundTrip | src/key.rs:237-264 | The secret subkey recovered from its binding-signed form is the original subkey, flags included. |
| Recover.PublicKeyRoundTrip | src/key.rs:154-176 | The public key recovered from a certified public key is the original key, under the same `AttributesKept` assumption. |
| Recover.SecretKeyRoundTrip | src/key.rs:210-234 | The secret key recovered from a certified secret key is the original key, under the same `AttributesKept` assumption. |

## Left out

- RSA key generation and the modular inverse u = p^-1 mod q (`src/key.rs:479-507`) rely on a bignum library and a prime search. They are an opaque function in `KeyGen.Entropy` that may fail. The `expect("invalid prime")` panic is not modelled.
- `OsRng::new().expect(...)` (`src/key.rs:566`) is assumed to succeed. Each acquisition of the random source is an `Entropy` value: the primary key uses draw 0 and subkey i uses draw i+1.
- x25519 and ed25519 point derivation are curve arithmetic. The x25519 public point is an abstract function of the secret, and the ed25519 keypair bytes are an abstract draw.
- String-to-key derivation and AES encryption inside `encrypt` are foreign cryptography and an abstract `Backend.encrypt`. The random source `encrypt` also receives (`src/key.rs:586`) is modelled as the bytes `Entropy.encryptionNonce`, which it takes as its first argument. How many bytes it draws is not modelled. The model assumes the encrypted parameters record the cipher, specifier, version and usage octet that are passed in. That packaging happens in a module that is not part of this model.
- Hash-then-sign (`sign_certificate`, `sign_key`, `sign_key_binding`), `UserAttribute::sign`, `key_id()` and `fingerprint()` are abstract functions in `Certify.Signing`. The `expect("missing key id")` panic is the precondition `CanIssue`.
- Each signature reads the clock on its own (`chrono::Utc::now()`). The model uses one `now` for every signature in a call.
- `SignatureConfigBuilder::build()` sets every field it needs, so its error path is not modelled. The signature hash algorithm it defaults to is not modelled either.
- The passphrase callback is modelled as the string it returns. The model assumes it returns the same value on every call.
- Serialization, ASCII armor, parsing, `verify`, `unlock`, and the tests' file writes are I/O, or code that is not part of this model.
- The conversion of key flags to subpacket octets lives in the packet module. It is modelled as the single first octet of section 5.2.3.21 of RFC 4880.
- The default packet format (`Old`) and key version (`V4`) come from the types module, which is not part of this model.
- `Duration` is reduced to whole seconds, since only `as_secs()` is used.
- Timestamps (`chrono::DateTime<Utc>`) are whole seconds since 1970 (`Timestamp = nat`). Sub-second and pre-1970 instants are not represented. The code only copies timestamps into packets and subpackets, so nothing here depends on their range.
- A subkey configuration's `user_ids` and `user_attributes` are carried but unused. Key assembly ignores them too.
- The plain builder setters (`key_type(...)`, `can_sign(...)` and the like) are field updates of the builder datatype, with no logic to model.
- `UserAttribute::sign` lives in a module that is not part of this model. The round-trip lemmas assume it returns the attribute it was given, which is stated as the predicate `Recover.AttributesKept`.

=== FILE: certify.dfy ===
/** Self-certification: the primary user id, the additional user ids and the
    user attributes of a key get generic-certification signatures, and each
    subkey gets a subkey-binding signature, all made by the primary secret
    key. Hash-then-sign, key-id and fingerprint derivation and the signing
    of user attributes are collaborators (`Signing`); the passphrase
    callback is the string it yields, and "now" is a parameter. */
module Certify {
  import opened Wrappers
  import opened Types
  import opened Flags
  import opened Key
  import Seqs

  /** What a signature is computed over. */
  datatype Payload =
    /** A user id (with its packet tag), for a certification. */
    | Certification(tag: Tag, id: UserId)
    /** A public subkey packet, for a binding. */
    | PublicBinding(subkey: KeyPacket)
    /** A secret subkey packet, for a binding. */
    | SecretBinding(secretSubkey: SecretKeyPacket)

  datatype SignedUser = SignedUser(id: UserId, signatures: seq<Signature>)

  datatype SignedUserAttribute = SignedUserAttribute(attr: UserAttribute, signatures: seq<Signature>)

  datatype SignedKeyDetails = SignedKeyDetails(
    revocationSignatures: seq<Signature>,
    directSignatures: seq<Signature>,
    users: seq<SignedUser>,
    userAttributes: seq<SignedUserAttribute>)

  datatype SignedPublicSubKey = SignedPublicSubKey(key: KeyPacket, signatures: seq<Signature>)

  datatype SignedSecretSubKey = SignedSecretSubKey(key: SecretKeyPacket, signatures: seq<Signature>)

  datatype SignedPublicKey = SignedPublicKey(
    primaryKey: KeyPacket,
    details: SignedKeyDetails,
    publicSubkeys: seq<SignedPublicSubKey>)

  datatype SignedSecretKey = SignedSecretKey(
    primaryKey: SecretKeyPacket,
    details: SignedKeyDetails,
    publicSubkeys: seq<SignedPublicSubKey>,
    secretSubkeys: seq<SignedSecretSubKey>)

  /** The signing collaborators. */
  datatype Signing = Signing(
    /** The key id of a key, when one can be derived. */
    keyId: KeyPacket -> Option<KeyId>,
    fingerprint: KeyPacket -> seq<byte>,
    /** Hash-then-sign of a payload under a configuration, with a signing key and its passphrase. */
    sign: (SecretKeyPacket, string, SignatureConfig, Payload) -> Result<SigMaterial, Error>,
    /** The self-signature routine of a user attribute. */
    signAttribute: (SecretKeyPacket, string, UserAttribute) -> Result<SignedUserAttribute, Error>)

  /** The signing key has a key id to name itself as issuer. */
  predicate CanIssue(s: Signing, key: SecretKeyPacket) {
    s.keyId(key.details).Some?
  }

  /** The unhashed area of every self-signature: issuer key id, then issuer fingerprint. */
  function IssuerSubpackets(s: Signing, key: SecretKeyPacket): seq<Subpacket>
    requires CanIssue(s, key)
  {
    [Issuer(s.keyId(key.details).value), IssuerFingerprint(s.fingerprint(key.details))]
  }

  /** The hashed area of an additional user id's certification. */
  function UserIdSubpackets(d: KeyDetails, now: Timestamp): seq<Subpacket> {
    [ SignatureCreationTime(now),
      KeyFlagsSubpacket(Octets(d.keyflags)),
      PreferredSymmetricAlgorithms(d.preferredSymmetricAlgorithms),
      PreferredHashAlgorithms(d.preferredHashAlgorithms),
      PreferredCompressionAlgorithms(d.preferredCompressionAlgorithms) ]
  }

  /** The hashed area of the primary user id's certification. */
  function PrimaryUserIdSubpackets(d: KeyDetails, now: Timestamp): seq<Subpacket> {
    [IsPrimary(true)] + UserIdSubpackets(d, now)
    + (match d.revocationKey case Some(rkey) => [RevocationKeySubpacket(rkey)] case None => [])
  }

  /** One signature of a given type by `key` over `payload`. */
  function SelfSignature(typ: SignatureType, hashed: seq<Subpacket>, issuers: seq<Subpacket>,
                         key: SecretKeyPacket, keyPw: string, payload: Payload, s: Signing): Result<Signature, Error>
  {
    var config := SignatureConfig(typ, key.details.algorithm, hashed, issuers);
    var material :- s.sign(key, keyPw, config, payload);
    Success(Signature(config, material))
  }

  /** A user id with its one generic certification. */
  function CertifyUserId(id: UserId, hashed: seq<Subpacket>, issuers: seq<Subpacket>,
                         key: SecretKeyPacket, keyPw: string, s: Signing): Result<SignedUser, Error>
  {
    var sig :- SelfSignature(CertGeneric, hashed, issuers, key, keyPw, Certification(UserIdTag, id), s);
    Success(SignedUser(id, [sig]))
  }

  /** The certification config of a user id. */
  function CertConfig(hashed: seq<Subpacket>, key: SecretKeyPacket, s: Signing): SignatureConfig
    requires CanIssue(s, key)
  {
    SignatureConfig(CertGeneric, key.details.algorithm, hashed, IssuerSubpackets(s, key))
  }

  /** The signing step for the primary user id. */
  function PrimaryCertification(d: KeyDetails, key: SecretKeyPacket, keyPw: string, now: Timestamp, s: Signing): Result<SigMaterial, Error>
    requires CanIssue(s, key)
  {
    s.sign(key, keyPw, CertConfig(PrimaryUserIdSubpackets(d, now), key, s), Certification(UserIdTag, d.primaryUserId))
  }

  /** The signing step for an additional user id. */
  function UserIdCertification(d: KeyDetails, id: UserId, key: SecretKeyPacket, keyPw: string, now: Timestamp, s: Signing): Result<SigMaterial, Error>
    requires CanIssue(s, key)
  {
    s.sign(key, keyPw, CertConfig(UserIdSubpackets(d, now), key, s), Certification(UserIdTag, id))
  }

  /** Every signing step of the key details succeeds: the primary user id,
      each additional user id and each user attribute. */
  predicate DetailsSignable(d: KeyDetails, key: SecretKeyPacket, keyPw: string, now: Timestamp, s: Signing)
    requires CanIssue(s, key)
  {
    && PrimaryCertification(d, key, keyPw, now, s).Success?
    && (forall i :: 0 <= i < |d.userIds| ==> UserIdCertification(d, d.userIds[i], key, keyPw, now, s).Success?)
    && (forall i :: 0 <= i < |d.userAttributes| ==> s.signAttribute(key, keyPw, d.userAttributes[i]).Success?)
  }

  /** Certifies the key details with `key`: the primary user id first, then
      the additional user ids in order, then the user attributes in order.
      The call succeeds exactly when every signing step does; otherwise it
      reports the error of the first step, in that order, that fails. */
  function SignKeyDetails(d: KeyDetails, key: SecretKeyPacket, keyPw: string, now: Timestamp, s: Signing): (r: Result<SignedKeyDetails, Error>)
    requires CanIssue(s, key)
    ensures r.Success? <==> DetailsSignable(d, key, keyPw, now, s)
    ensures PrimaryCertification(d, key, keyPw, now, s).Failure? ==>
      r == Failure(PrimaryCertification(d, key, keyPw, now, s).error)
    ensures PrimaryCertification(d, key, keyPw, now, s).Success? && r.Failure?
            && !(forall i :: 0 <= i < |d.userIds| ==> UserIdCertification(d, d.userIds[i], key, keyPw, now, s).Success?) ==>
      exists k :: 0 <= k < |d.userIds|
        && UserIdCertification(d, d.userIds[k], key, keyPw, now, s).Failure?
        && r.error == UserIdCertification(d, d.userIds[k], key, keyPw, now, s).error
        && forall j :: 0 <= j < k ==> UserIdCertification(d, d.userIds[j], key, keyPw, now, s).Success?
    ensures PrimaryCertification(d, key, keyPw, now, s).Success? && r.Failure?
            && (forall i :: 0 <= i < |d.userIds| ==> UserIdCertification(d, d.userIds[i], key, keyPw, now, s).Success?) ==>
      exists k :: 0 <= k < |d.userAttributes|
        && s.signAttribute(key, keyPw, d.userAttributes[k]).Failure?
        && r.error == s.signAttribute(key, keyPw, d.userAttributes[k]).error
        && forall j :: 0 <= j < k ==> s.signAttribute(key, keyPw, d.userAttributes[j]).Success?
    ensures r.Success? ==>
      && r.value.revocationSignatures == [] && r.value.directSignatures == []
      && |r.value.users| == 1 + |d.userIds|
      && r.value.users[0].id == d.primaryUserId
      && (forall i :: 0 <= i < |d.userIds| ==> r.value.users[i + 1].id == d.userIds[i])
      && |r.value.userAttributes| == |d.userAttributes|
      && (forall i :: 0 <= i < |d.userAttributes| ==> r.value.userAttributes[i] == s.signAttribute(key, keyPw, d.userAttributes[i]).value)
  {
    var issuers := IssuerSubpackets(s, key);
    var primary :- CertifyUserId(d.primaryUserId, PrimaryUserIdSubpackets(d, now), issuers, key, keyPw, s);
    var certify := (id: UserId) => CertifyUserId(id, UserIdSubpackets(d, now), issuers, key, keyPw, s);
    assert forall i :: 0 <= i < |d.userIds| ==>
      && certify(d.userIds[i]).Success? == UserIdCertification(d, d.userIds[i], key, keyPw, now, s).Success?
      && (certify(d.userIds[i]).Failure? ==> certify(d.userIds[i]).error == UserIdCertification(d, d.userIds[i], key, keyPw, now, s).error);
    var others :- Seqs.CollectMap(d.userIds, certify);
    var signAttr := (a: UserAttribute) => s.signAttribute(key, keyPw, a);
    var attributes :- Seqs.CollectMap(d.userAttributes, signAttr);
    Success(SignedKeyDetails([], [], [primary] + others, attributes))
  }

  /** The certifications inside signed key details: each user carries
      exactly one generic certification (type 0x10) by `key`, issued under
      its key id and fingerprint, whose material is what the signing routine
      computes over that user id under that configuration. The primary's hashed area is exactly is-primary,
      creation time, key flags and the three preference lists, followed by
      the revocation key when there is one; every additional user id's
      hashed area is the primary's without is-primary and without a
      revocation key. */
  lemma SignedDetailsSubpackets(d: KeyDetails, key: SecretKeyPacket, keyPw: string, now: Timestamp, s: Signing)
    requires CanIssue(s, key)
    requires SignKeyDetails(d, key, keyPw, now, s).Success?
    ensures var sd := SignKeyDetails(d, key, keyPw, now, s).value;
      && (forall i :: 0 <= i < |sd.users| ==>
            && |sd.users[i].signatures| == 1
            && sd.users[i].signatures[0].config.typ == CertGeneric
            && TypeCode(sd.users[i].signatures[0].config.typ) == 0x10
            && sd.users[i].signatures[0].config.pubAlg == key.details.algorithm
            && sd.users[i].signatures[0].config.unhashed
                 == [Issuer(s.keyId(key.details).value), IssuerFingerprint(s.fingerprint(key.details))]
            && sd.users[i].signatures[0].material
                 == s.sign(key, keyPw, sd.users[i].signatures[0].config, Certification(UserIdTag, sd.users[i].id)).value)
      && sd.users[0].signatures[0].config.hashed
           == [ IsPrimary(true), SignatureCreationTime(now), KeyFlagsSubpacket(Octets(d.keyflags)),
                PreferredSymmetricAlgorithms(d.preferredSymmetricAlgorithms),
                PreferredHashAlgorithms(d.preferredHashAlgorithms),
                PreferredCompressionAlgorithms(d.preferredCompressionAlgorithms) ]
              + (if d.revocationKey.Some? then [RevocationKeySubpacket(d.revocationKey.value)] else [])
      && (forall i :: 1 <= i < |sd.users| ==>
            && sd.users[i].signatures[0].config.hashed == sd.users[0].signatures[0].config.hashed[1..6]
            && forall j :: 0 <= j < |sd.users[i].signatures[0].config.hashed| ==>
                 !sd.users[i].signatures[0].config.hashed[j].RevocationKeySubpacket?)
  {
    var sd := SignKeyDetails(d, key, keyPw, now, s).value;
    var issuers := IssuerSubpackets(s, key);
    var certify := (id: UserId) => CertifyUserId(id, UserIdSubpackets(d, now), issuers, key, keyPw, s);
    var others := Seqs.CollectMap(d.userIds, certify);
    assert others.Success?;
    assert sd.users[1..] == others.value;
    var primaryHashed := PrimaryUserIdSubpackets(d, now);
    assert primaryHashed[1..6] == UserIdSubpackets(d, now);
    forall i | 1 <= i < |sd.users|
      ensures sd.users[i] == certify(d.userIds[i - 1]).value
    {
      assert sd.users[i] == others.value[i - 1];
    }
  }

  /** The subkey-binding config: creation time and the subkey's flags, issued by `key`. */
  function BindingConfig(keyflags: KeyFlags, key: SecretKeyPacket, now: Timestamp, s: Signing): SignatureConfig
    requires CanIssue(s, key)
  {
    SignatureConfig(SubkeyBinding, key.details.algorithm,
                    [SignatureCreationTime(now), KeyFlagsSubpacket(Octets(keyflags))], IssuerSubpackets(s, key))
  }

  /** Binds a public subkey to `key` with one subkey-binding signature
      (type 0x18) whose hashed area is exactly creation time and the
      subkey's flags, computed over the subkey packet. */
  function SignPublicSubkey(k: PublicSubkey, key: SecretKeyPacket, keyPw: string, now: Timestamp, s: Signing): (r: Result<SignedPublicSubKey, Error>)
    requires CanIssue(s, key)
    ensures r.Success? <==> s.sign(key, keyPw, BindingConfig(k.keyflags, key, now, s), PublicBinding(k.key)).Success?
    ensures r.Failure? ==> r.error == s.sign(key, keyPw, BindingConfig(k.keyflags, key, now, s), PublicBinding(k.key)).error
    ensures r.Success? ==>
      && r.value.key == k.key
      && |r.value.signatures| == 1
      && r.value.signatures[0].config.typ == SubkeyBinding
      && r.value.signatures[0].config.pubAlg == key.details.algorithm
      && r.value.signatures[0].config.hashed == [SignatureCreationTime(now), KeyFlagsSubpacket(Octets(k.keyflags))]
      && r.value.signatures[0].config.unhashed == [Issuer(s.keyId(key.details).value), IssuerFingerprint(s.fingerprint(key.details))]
      && TypeCode(r.value.signatures[0].config.typ) == 0x18
      && r.value.signatures[0].material
           == s.sign(key, keyPw, r.value.signatures[0].config, PublicBinding(k.key)).value
  {
    var sig :- SelfSignature(SubkeyBinding, [SignatureCreationTime(now), KeyFlagsSubpacket(Octets(k.keyflags))],
                             IssuerSubpackets(s, key), key, keyPw, PublicBinding(k.key), s);
    Success(SignedPublicSubKey(k.key, [sig]))
  }

  /** Binds a secret subkey to `key`; the signature is computed over the
      secret subkey packet, otherwise as for a public subkey. */
  function SignSecretSubkey(k: SecretSubkey, key: SecretKeyPacket, keyPw: string, now: Timestamp, s: Signing): (r: Result<SignedSecretSubKey, Error>)
    requires CanIssue(s, key)
    ensures r.Success? <==> s.sign(key, keyPw, BindingConfig(k.keyflags, key, now, s), SecretBinding(k.key)).Success?
    ensures r.Failure? ==> r.error == s.sign(key, keyPw, BindingConfig(k.keyflags, key, now, s), SecretBinding(k.key)).error
    ensures r.Success? ==>
      && r.value.key == k.key
      && |r.value.signatures| == 1
      && r.value.signatures[0].config.typ == SubkeyBinding
      && r.value.signatures[0].config.pubAlg == key.details.algorithm
      && r.value.signatures[0].config.hashed == [SignatureCreationTime(now), KeyFlagsSubpacket(Octets(k.keyflags))]
      && r.value.signatures[0].config.unhashed == [Issuer(s.keyId(key.details).value), IssuerFingerprint(s.fingerprint(key.details))]
      && TypeCode(r.value.signatures[0].config.typ) == 0x18
      && r.value.signatures[0].material
           == s.sign(key, keyPw, r.value.signatures[0].config, SecretBinding(k.key)).value
  {
    var sig :- SelfSignature(SubkeyBinding, [SignatureCreationTime(now), KeyFlagsSubpacket(Octets(k.keyflags))],
                             IssuerSubpackets(s, key), key, keyPw, SecretBinding(k.key), s);
    Success(SignedSecretSubKey(k.key, [sig]))
  }

  /** `e` is the error of the first public subkey whose binding fails. */
  ghost predicate FirstPublicSubkeyError(ks: seq<PublicSubkey>, key: SecretKeyPacket, keyPw: string, now: Timestamp, s: Signing, e: Error)
    requires CanIssue(s, key)
  {
    exists k :: 0 <= k < |ks|
      && SignPublicSubkey(ks[k], key, keyPw, now, s).Failure?
      && e == SignPublicSubkey(ks[k], key, keyPw, now, s).error
      && forall j :: 0 <= j < k ==> SignPublicSubkey(ks[j], key, keyPw, now, s).Success?
  }

  /** `e` is the error of the first secret subkey whose binding fails. */
  ghost predicate FirstSecretSubkeyError(ks: seq<SecretSubkey>, key: SecretKeyPacket, keyPw: string, now: Timestamp, s: Signing, e: Error)
    requires CanIssue(s, key)
  {
    exists k :: 0 <= k < |ks|
      && SignSecretSubkey(ks[k], key, keyPw, now, s).Failure?
      && e == SignSecretSubkey(ks[k], key, keyPw, now, s).error
      && forall j :: 0 <= j < k ==> SignSecretSubkey(ks[j], key, keyPw, now, s).Success?
  }

  /** Certifies a public key with an external signing key: the details,
      then every public subkey in order. The primary key is kept as is, the
      subkey list keeps its length and order, and any failing step fails
      the whole call with the error of the first step that fails. */
  function SignPublicKey(pk: PublicKey, secKey: SecretKeyPacket, keyPw: string, now: Timestamp, s: Signing): (r: Result<SignedPublicKey, Error>)
    requires CanIssue(s, secKey)
    ensures r.Success? <==>
      && SignKeyDetails(pk.details, secKey, keyPw, now, s).Success?
      && forall i :: 0 <= i < |pk.publicSubkeys| ==> SignPublicSubkey(pk.publicSubkeys[i], secKey, keyPw, now, s).Success?
    ensures r.Success? ==>
      && r.value.primaryKey == pk.primaryKey
      && r.value.details == SignKeyDetails(pk.details, secKey, keyPw, now, s).value
      && |r.value.publicSubkeys| == |pk.publicSubkeys|
      && forall i :: 0 <= i < |pk.publicSubkeys| ==>
           r.value.publicSubkeys[i] == SignPublicSubkey(pk.publicSubkeys[i], secKey, keyPw, now, s).value
    ensures SignKeyDetails(pk.details, secKey, keyPw, now, s).Failure? ==>
      r == Failure(SignKeyDetails(pk.details, secKey, keyPw, now, s).error)
    ensures SignKeyDetails(pk.details, secKey, keyPw, now, s).Success? && r.Failure? ==>
      FirstPublicSubkeyError(pk.publicSubkeys, secKey, keyPw, now, s, r.error)
  {
    var details :- SignKeyDetails(pk.details, secKey, keyPw, now, s);
    var publicSubkeys :- Seqs.CollectMap(pk.publicSubkeys, (k: PublicSubkey) => SignPublicSubkey(k, secKey, keyPw, now, s));
    Success(SignedPublicKey(pk.primaryKey, details, publicSubkeys))
  }

  /** Certifies a secret key with its own primary key: the details, then
      every public subkey, then every secret subkey, each list in order.
      The primary key is kept as is and any failing step fails the call
      with the error of the first step, in that order, that fails. */
  function SignSecretKey(sk: SecretKey, keyPw: string, now: Timestamp, s: Signing): (r: Result<SignedSecretKey, Error>)
    requires CanIssue(s, sk.primaryKey)
    ensures r.Success? <==>
      && SignKeyDetails(sk.details, sk.primaryKey, keyPw, now, s).Success?
      && (forall i :: 0 <= i < |sk.publicSubkeys| ==> SignPublicSubkey(sk.publicSubkeys[i], sk.primaryKey, keyPw, now, s).Success?)
      && (forall i :: 0 <= i < |sk.secretSubkeys| ==> SignSecretSubkey(sk.secretSubkeys[i], sk.primaryKey, keyPw, now, s).Success?)
    ensures r.Success? ==>
      && r.value.primaryKey == sk.primaryKey
      && r.value.details == SignKeyDetails(sk.details, sk.primaryKey, keyPw, now, s).value
      && |r.value.publicSubkeys| == |sk.publicSubkeys|
      && (forall i :: 0 <= i < |sk.publicSubkeys| ==>
            r.value.publicSubkeys[i] == SignPublicSubkey(sk.publicSubkeys[i], sk.primaryKey, keyPw, now, s).value)
      && |r.value.secretSubkeys| == |sk.secretSubkeys|
      && (forall i :: 0 <= i < |sk.secretSubkeys| ==>
            r.value.secretSubkeys[i] == SignSecretSubkey(sk.secretSubkeys[i], sk.primaryKey, keyPw, now, s).value)
    ensures SignKeyDetails(sk.details, sk.primaryKey, keyPw, now, s).Failure? ==>
      r == Failure(SignKeyDetails(sk.details, sk.primaryKey, keyPw, now, s).error)
    ensures SignKeyDetails(sk.details, sk.primaryKey, keyPw, now, s).Success? && r.Failure?
            && !(forall i :: 0 <= i < |sk.publicSubkeys| ==> SignPublicSubkey(sk.publicSubkeys[i], sk.primaryKey, keyPw, now, s).Success?) ==>
      FirstPublicSubkeyError(sk.publicSubkeys, sk.primaryKey, keyPw, now, s, r.error)
    ensures SignKeyDetails(sk.details, sk.primaryKey, keyPw, now, s).Success? && r.Failure?
            && (forall i :: 0 <= i < |sk.publicSubkeys| ==> SignPublicSubkey(sk.publicSubkeys[i], sk.primaryKey, keyPw, now, s).Success?) ==>
      FirstSecretSubkeyError(sk.secretSubkeys, sk.primaryKey, keyPw, now, s, r.error)
  {
    var primaryKey := sk.primaryKey;
    var details :- SignKeyDetails(sk.details, primaryKey, keyPw, now, s);
    var publicSubkeys :- Seqs.CollectMap(sk.publicSubkeys, (k: PublicSubkey) => SignPublicSubkey(k, primaryKey, keyPw, now, s));
    var secretSubkeys :- Seqs.CollectMap(sk.secretSubkeys, (k: SecretSubkey) => SignSecretSubkey(k, primaryKey, keyPw, now, s));
    Success(SignedSecretKey(primaryKey, details, publicSubkeys, secretSubkeys))
  }
}

=== FILE: flags.dfy ===
/** Key-usage flags and their first-octet encoding, as laid out in section
    5.2.3.21 of RFC 4880: 0x01 certify, 0x02 sign, 0x04 encrypt
    communications, 0x08 encrypt storage, 0x10 split secret, 0x20
    authentication, 0x80 shared secret (0x40 is unassigned). */
module Flags {
  import opened Types

  datatype KeyFlags = KeyFlags(
    certify: bool,
    sign: bool,
    encryptComms: bool,
    encryptStorage: bool,
    split: bool,
    authentication: bool,
    shared: bool)

  /** The default flag set: nothing allowed. */
  const NoFlags := KeyFlags(false, false, false, false, false, false, false)

  /** Flags derived from a configuration's capability booleans: certify from
      the certificate capability, sign from the signing capability, and both
      encryption purposes from the single encryption capability. Primary key
      and subkeys derive their flags through this one function. */
  function FromCapabilities(canCreateCertificates: bool, canSign: bool, canEncrypt: bool): (f: KeyFlags)
    ensures f.certify <==> canCreateCertificates
    ensures f.sign <==> canSign
    ensures f.encryptComms <==> canEncrypt
    ensures f.encryptStorage <==> canEncrypt
    ensures !f.split && !f.authentication && !f.shared
  {
    NoFlags.(certify := canCreateCertificates)
           .(encryptComms := canEncrypt)
           .(encryptStorage := canEncrypt)
           .(sign := canSign)
  }

  function Mask(on: bool, bit: byte): byte {
    if on then bit else 0
  }

  /** The first flags octet. */
  function Octet(f: KeyFlags): byte {
    Mask(f.certify, 0x01) | Mask(f.sign, 0x02) | Mask(f.encryptComms, 0x04) | Mask(f.encryptStorage, 0x08)
    | Mask(f.split, 0x10) | Mask(f.authentication, 0x20) | Mask(f.shared, 0x80)
  }

  /** Reads the flags back from a first octet. */
  function FromOctet(b: byte): KeyFlags {
    KeyFlags(
      b & 0x01 != 0, b & 0x02 != 0, b & 0x04 != 0, b & 0x08 != 0,
      b & 0x10 != 0, b & 0x20 != 0, b & 0x80 != 0)
  }

  /** The octets a key-flags subpacket carries. */
  function Octets(f: KeyFlags): seq<byte> {
    [Octet(f)]
  }

  /** Reads the flags of a key-flags subpacket; an empty subpacket grants nothing. */
  function FromOctets(os: seq<byte>): KeyFlags {
    if |os| == 0 then NoFlags else FromOctet(os[0])
  }

  /** Decoding an encoded flag set gives it back. */
  lemma OctetsRoundTrip(f: KeyFlags)
    ensures FromOctets(Octets(f)) == f
  {
  }

  /** Encoding a decoded octet gives it back except for the unassigned bit 0x40. */
  lemma OctetCanonical(b: byte)
    ensures Octet(FromOctet(b)) == b & 0xBF
  {
  }

  /** The octet of derived flags has exactly the bits RFC 4880 assigns to
      the requested capabilities: 0x01 iff certify, 0x02 iff sign, 0x04 and
      0x08 iff encrypt, and nothing above 0x08. */
  lemma CapabilityBits(canCreateCertificates: bool, canSign: bool, canEncrypt: bool)
    ensures Octet(FromCapabilities(canCreateCertificates, canSign, canEncrypt)) & 0x01 != 0 <==> canCreateCertificates
    ensures Octet(FromCapabilities(canCreateCertificates, canSign, canEncrypt)) & 0x02 != 0 <==> canSign
    ensures Octet(FromCapabilities(canCreateCertificates, canSign, canEncrypt)) & 0x04 != 0 <==> canEncrypt
    ensures Octet(FromCapabilities(canCreateCertificates, canSign, canEncrypt)) & 0x08 != 0 <==> canEncrypt
    ensures Octet(FromCapabilities(canCreateCertificates, canSign, canEncrypt)) & 0xF0 == 0
  {
  }
}

=== FILE: key.dfy ===
/** Unsigned key objects and their assembly from a finalised configuration:
    primary key material, key flags, identity metadata, then one secret
    subkey per subkey configuration. */
module Key {
  import opened Wrappers
  import opened Types
  import opened Flags
  import opened KeyGen
  import opened Params
  import Seqs

  /** Identity and policy metadata bound to a primary key. */
  datatype KeyDetails = KeyDetails(
    primaryUserId: UserId,
    userIds: seq<UserId>,
    userAttributes: seq<UserAttribute>,
    keyflags: KeyFlags,
    preferredSymmetricAlgorithms: seq<SymmetricKeyAlgorithm>,
    preferredHashAlgorithms: seq<HashAlgorithm>,
    preferredCompressionAlgorithms: seq<CompressionAlgorithm>,
    revocationKey: Option<RevocationKey>)

  datatype PublicSubkey = PublicSubkey(key: KeyPacket, keyflags: KeyFlags)

  datatype SecretSubkey = SecretSubkey(key: SecretKeyPacket, keyflags: KeyFlags)

  datatype PublicKey = PublicKey(primaryKey: KeyPacket, details: KeyDetails, publicSubkeys: seq<PublicSubkey>)

  datatype SecretKey = SecretKey(
    primaryKey: SecretKeyPacket,
    details: KeyDetails,
    publicSubkeys: seq<PublicSubkey>,
    secretSubkeys: seq<SecretSubkey>)

  /** A key lifetime as stored in a key packet: the whole seconds cast to
      16 bits, which keeps the low 16 bits. */
  function PacketExpiration(e: Option<Duration>): (r: Option<u16>)
    ensures r.Some? <==> e.Some?
    ensures r.Some? ==> (e.value.secs - r.value) % 0x1_0000 == 0
    ensures r.Some? && e.value.secs < 0x1_0000 ==> r.value == e.value.secs
  {
    match e
    case None => None
    case Some(d) => Some(d.secs % 0x1_0000)
  }

  /** A user id built from a configured string with the default packet format. */
  function UserIdOf(s: string): UserId {
    UserId(DefaultPacketVersion, s)
  }

  /** One secret subkey from its configuration and a fresh random draw. */
  function GenerateSubkey(sp: SubkeyParams, rng: Entropy, backend: Backend): (r: Result<SecretSubkey, Error>)
    ensures r.Success? <==> KeyGen.Generate(sp.keyType, sp.passphrase, rng, backend).Success?
    ensures r.Failure? ==> r.error == KeyGen.Generate(sp.keyType, sp.passphrase, rng, backend).error
    ensures r.Success? ==>
      && r.value.keyflags == FromCapabilities(sp.canCreateCertificates, sp.canSign, sp.canEncrypt)
      && r.value.key.details.algorithm == ToAlg(sp.keyType)
      && r.value.key.details.publicParams == KeyGen.Generate(sp.keyType, sp.passphrase, rng, backend).value.0
      && r.value.key.secretParams == KeyGen.Generate(sp.keyType, sp.passphrase, rng, backend).value.1
      && r.value.key.details.createdAt == sp.createdAt
      && r.value.key.details.expiration == PacketExpiration(sp.expiration)
      && r.value.key.details.packetVersion == sp.packetVersion
      && r.value.key.details.version == sp.version
      && (r.value.key.secretParams.Plain? <==> sp.passphrase.None?)
  {
    var generated :- KeyGen.Generate(sp.keyType, sp.passphrase, rng, backend);
    Success(SecretSubkey(
      SecretKeyPacket(
        KeyPacket(sp.packetVersion, sp.version, ToAlg(sp.keyType), sp.createdAt, PacketExpiration(sp.expiration), generated.0),
        generated.1),
      FromCapabilities(sp.canCreateCertificates, sp.canSign, sp.canEncrypt)))
  }

  /** Subkey `i` is the first one whose generation fails. */
  ghost predicate FirstSubkeyFailure(subkeys: seq<SubkeyParams>, rng: nat -> Entropy, first: nat, backend: Backend, i: int) {
    && 0 <= i < |subkeys|
    && GenerateSubkey(subkeys[i], rng(first + i), backend).Failure?
    && forall j :: 0 <= j < i ==> GenerateSubkey(subkeys[j], rng(first + j), backend).Success?
  }

  /** The subkeys of a configuration, subkey `i` drawing from `rng(first + i)`;
      the first failure aborts the whole list and is the one reported. */
  function GenerateSubkeys(subkeys: seq<SubkeyParams>, rng: nat -> Entropy, first: nat, backend: Backend): (r: Result<seq<SecretSubkey>, Error>)
    ensures r.Success? <==> forall i :: 0 <= i < |subkeys| ==> GenerateSubkey(subkeys[i], rng(first + i), backend).Success?
    ensures r.Success? ==> |r.value| == |subkeys|
    ensures r.Success? ==> forall i :: 0 <= i < |subkeys| ==> r.value[i] == GenerateSubkey(subkeys[i], rng(first + i), backend).value
    ensures r.Failure? ==> exists i ::
      FirstSubkeyFailure(subkeys, rng, first, backend, i) && r.error == GenerateSubkey(subkeys[i], rng(first + i), backend).error
  {
    var f := (n: nat, sp: SubkeyParams) => GenerateSubkey(sp, rng(n), backend);
    var r := Seqs.CollectMapFrom(subkeys, f, first);
    assert r.Failure? ==> exists i ::
      FirstSubkeyFailure(subkeys, rng, first, backend, i) && r.error == GenerateSubkey(subkeys[i], rng(first + i), backend).error by {
      if r.Failure? {
        var k :| Seqs.FirstFailure(subkeys, f, first, k) && r.error == f(first + k, subkeys[k]).error;
        assert forall j :: 0 <= j < k ==> f(first + j, subkeys[j]) == GenerateSubkey(subkeys[j], rng(first + j), backend);
      }
    }
    r
  }

  /** Assembles an unsigned secret key from a finalised configuration. The
      primary key draws from `rng(0)`. The result has no public subkeys and
      one secret subkey per subkey configuration, in order; every packet's
      algorithm is its key type's; flags come from the capability booleans;
      user ids are carried over in order; lifetimes are cut to 16 bits. A
      failure of the primary or of any subkey fails the whole call. */
  function GenerateKey(p: SecretKeyParams, rng: nat -> Entropy, backend: Backend): (r: Result<SecretKey, Error>)
    ensures r.Success? <==>
      && KeyGen.Generate(p.keyType, p.passphrase, rng(0), backend).Success?
      && forall i :: 0 <= i < |p.subkeys| ==> KeyGen.Generate(p.subkeys[i].keyType, p.subkeys[i].passphrase, rng(i + 1), backend).Success?
    ensures KeyGen.Generate(p.keyType, p.passphrase, rng(0), backend).Failure? ==>
      r == Failure(KeyGen.Generate(p.keyType, p.passphrase, rng(0), backend).error)
    ensures r.Success? ==>
      && r.value.publicSubkeys == []
      && |r.value.secretSubkeys| == |p.subkeys|
      && r.value.primaryKey.details.algorithm == ToAlg(p.keyType)
      && AlgorithmOf(r.value.primaryKey.details.publicParams) == ToAlg(p.keyType)
      && r.value.primaryKey.details.publicParams == KeyGen.Generate(p.keyType, p.passphrase, rng(0), backend).value.0
      && r.value.primaryKey.secretParams == KeyGen.Generate(p.keyType, p.passphrase, rng(0), backend).value.1
      && r.value.primaryKey.details.packetVersion == p.packetVersion
      && r.value.primaryKey.details.version == p.version
      && r.value.primaryKey.details.createdAt == p.createdAt
      && r.value.primaryKey.details.expiration == PacketExpiration(p.expiration)
      && (r.value.primaryKey.secretParams.Plain? <==> p.passphrase.None?)
      && r.value.details.keyflags == FromCapabilities(p.canCreateCertificates, p.canSign, p.canEncrypt)
      && r.value.details.primaryUserId == UserId(DefaultPacketVersion, p.primaryUserId)
      && |r.value.details.userIds| == |p.userIds|
      && (forall i :: 0 <= i < |p.userIds| ==> r.value.details.userIds[i] == UserId(DefaultPacketVersion, p.userIds[i]))
      && r.value.details.userAttributes == p.userAttributes
      && r.value.details.revocationKey == p.revocationKey
      && r.value.details.preferredSymmetricAlgorithms == p.preferredSymmetricAlgorithms
      && r.value.details.preferredHashAlgorithms == p.preferredHashAlgorithms
      && r.value.details.preferredCompressionAlgorithms == p.preferredCompressionAlgorithms
      && forall i :: 0 <= i < |p.subkeys| ==> r.value.secretSubkeys[i] == GenerateSubkey(p.subkeys[i], rng(i + 1), backend).value
    ensures KeyGen.Generate(p.keyType, p.passphrase, rng(0), backend).Success? && r.Failure? ==>
      r.error == GenerateSubkeys(p.subkeys, rng, 1, backend).error
  {
    var primary :- KeyGen.Generate(p.keyType, p.passphrase, rng(0), backend);
    var primaryKey := SecretKeyPacket(
      KeyPacket(p.packetVersion, p.version, ToAlg(p.keyType), p.createdAt, PacketExpiration(p.expiration), primary.0),
      primary.1);
    var details := KeyDetails(
      UserIdOf(p.primaryUserId),
      seq(|p.userIds|, i requires 0 <= i < |p.userIds| => UserIdOf(p.userIds[i])),
      p.userAttributes,
      FromCapabilities(p.canCreateCertificates, p.canSign, p.canEncrypt),
      p.preferredSymmetricAlgorithms,
      p.preferredHashAlgorithms,
      p.preferredCompressionAlgorithms,
      p.revocationKey);
    var secretSubkeys :- GenerateSubkeys(p.subkeys, rng, 1, backend);
    Success(SecretKey(primaryKey, details, [], secretSubkeys))
  }

  /** Each secret subkey of a generated key matches its configuration: its
      algorithm, flags, creation time and lifetime come from subkey
      configuration `i`, derived the same way as the primary key's. */
  lemma GeneratedSubkeysFollowConfig(p: SecretKeyParams, rng: nat -> Entropy, backend: Backend, i: nat)
    requires GenerateKey(p, rng, backend).Success?
    requires i < |p.subkeys|
    ensures var k := GenerateKey(p, rng, backend).value.secretSubkeys[i];
      && k.keyflags == FromCapabilities(p.subkeys[i].canCreateCertificates, p.subkeys[i].canSign, p.subkeys[i].canEncrypt)
      && k.key.details.algorithm == ToAlg(p.subkeys[i].keyType)
      && AlgorithmOf(k.key.details.publicParams) == ToAlg(p.subkeys[i].keyType)
      && k.key.details.publicParams == KeyGen.Generate(p.subkeys[i].keyType, p.subkeys[i].passphrase, rng(i + 1), backend).value.0
      && k.key.secretParams == KeyGen.Generate(p.subkeys[i].keyType, p.subkeys[i].passphrase, rng(i + 1), backend).value.1
      && k.key.details.createdAt == p.subkeys[i].createdAt
      && k.key.details.expiration == PacketExpiration(p.subkeys[i].expiration)
      && k.key.details.packetVersion == p.subkeys[i].packetVersion
      && k.key.details.version == p.subkeys[i].version
      && (k.key.secretParams.Plain? <==> p.subkeys[i].passphrase.None?)
  {
    var generated := KeyGen.Generate(p.subkeys[i].keyType, p.subkeys[i].passphrase, rng(i + 1), backend);
    assert GenerateSubkey(p.subkeys[i], rng(i + 1), backend).Success?;
    assert GenerateSubkey(p.subkeys[i], rng(i + 1), backend).value.key.details.publicParams == generated.value.0;
  }

  /** A subkey configuration whose generation fails makes key assembly fail. */
  lemma SubkeyFailureFailsKey(p: SecretKeyParams, rng: nat -> Entropy, backend: Backend, i: nat)
    requires i < |p.subkeys|
    requires KeyGen.Generate(p.subkeys[i].keyType, p.subkeys[i].passphrase, rng(i + 1), backend).Failure?
    ensures GenerateKey(p, rng, backend).Failure?
  {
  }
}

=== FILE: keygen.dfy ===
/** Key-material generation per algorithm and protection of the secret
    parameters. Randomness, curve arithmetic, RSA prime search and symmetric
    encryption are collaborators: a fresh `Entropy` value stands for one
    acquisition of the system random source, and `Backend` for the curve
    and cipher code. Only what this code does with their outputs (byte
    layout, algorithm choice, Plain-versus-Encrypted) is modelled. */
module KeyGen {
  import opened Wrappers
  import opened Types
  import Seqs

  /** The algorithm choice of a key or subkey configuration. */
  datatype KeyType = Rsa(bits: nat) | ECDH | EdDSA

  /** The leading octet of a native curve-point encoding. */
  const NativePointTag: byte := 0x40

  /** The symmetric cipher secret keys are encrypted with. */
  const SecretKeyCipher: SymmetricKeyAlgorithm := AES256

  /** String-to-key usage octet 254: encrypted, with a SHA-1 checksum (section 5.5.3 of RFC 4880). */
  const Sha1ChecksumUsage: byte := 254

  /** An RSA private key as the prime search returns it, with u = p^-1 mod q. */
  datatype RsaMaterial = RsaMaterial(n: nat, e: nat, d: nat, p: nat, q: nat, u: nat)

  /** What one acquisition of the system random source yields to the generators. */
  datatype Entropy = Entropy(
    /** The RSA prime search for a requested bit size; it may fail. */
    rsaKey: nat -> Result<RsaMaterial, Error>,
    /** The bytes of a fresh x25519 static secret. */
    x25519Secret: Bytes32,
    /** A fresh ed25519 keypair: 32 secret-seed bytes, then 32 public-point bytes. */
    ed25519Keypair: Bytes64,
    /** A fresh default string-to-key specifier. */
    s2k: StringToKey,
    /** The random bytes secret-key encryption draws for its initialisation vector. */
    encryptionNonce: seq<byte>)

  /** Curve and cipher code the generators call into. */
  datatype Backend = Backend(
    /** The x25519 public point of a static secret. */
    x25519Public: Bytes32 -> Bytes32,
    /** Encryption of secret parameters, given its random bytes, under a
        passphrase, with the given cipher, string-to-key specifier, key
        version and usage octet. */
    encrypt: (seq<byte>, PlainSecretParams, string, SymmetricKeyAlgorithm, StringToKey, KeyVersion, byte) -> Result<Ciphertext, Error>)

  /** The public-key algorithm identifier of a key type: every RSA size is
      RSA, and the two curve types keep their own identifiers. */
  function ToAlg(kt: KeyType): (r: PublicKeyAlgorithm)
    ensures r == PublicKeyAlgorithm.RSA <==> kt.Rsa?
    ensures r == PublicKeyAlgorithm.ECDH <==> kt.ECDH?
    ensures r == PublicKeyAlgorithm.EdDSA <==> kt.EdDSA?
  {
    match kt
    case Rsa(_) => PublicKeyAlgorithm.RSA
    case ECDH => PublicKeyAlgorithm.ECDH
    case EdDSA => PublicKeyAlgorithm.EdDSA
  }

  /** RSA key material: public (n, e), secret (d, p, q, u). */
  function GenerateRsaKey(bits: nat, rng: Entropy): (r: Result<(PublicParams, PlainSecretParams), Error>)
    ensures r.Success? <==> rng.rsaKey(bits).Success?
    ensures r.Failure? ==> r.error == rng.rsaKey(bits).error
    ensures r.Success? ==> r.value.0 == RsaPublic(rng.rsaKey(bits).value.n, rng.rsaKey(bits).value.e)
    ensures r.Success? ==>
      var key := rng.rsaKey(bits).value;
      r.value.1 == RsaSecret(key.d, key.p, key.q, key.u)
  {
    var key :- rng.rsaKey(bits);
    Success((RsaPublic(key.n, key.e), RsaSecret(key.d, key.p, key.q, key.u)))
  }

  /** Curve25519 ECDH key material. The public point is stored as a 33-byte
      buffer, the native-point tag followed by the point; the secret is the
      scalar in reversed byte order; the key-derivation hash and key-wrap
      cipher are fixed to SHA-256 and AES-128. */
  function GenerateEcdhKey(rng: Entropy, backend: Backend): (r: (PublicParams, PlainSecretParams))
    ensures r.0.EcdhPublic? && r.0.curve == Curve25519
    ensures |r.0.p| == 33 && r.0.p[0] == NativePointTag
    ensures r.0.p[1..] == backend.x25519Public(rng.x25519Secret)
    ensures r.0.hash == SHA256 && r.0.algSym == AES128
    ensures r.1.EcdhSecret? && |r.1.scalar| == 32
    ensures forall i :: 0 <= i < 32 ==> r.1.scalar[i] == rng.x25519Secret[31 - i]
  {
    var point := backend.x25519Public(rng.x25519Secret);
    var p := [NativePointTag] + point;
    assert p[1..] == point;
    (EcdhPublic(Curve25519, p, SHA256, AES128), EcdhSecret(Seqs.Reverse(rng.x25519Secret)))
  }

  /** The stored ECDH secret turns back into the x25519 scalar when reversed. */
  lemma EcdhSecretRecoversScalar(rng: Entropy, backend: Backend)
    ensures Seqs.Reverse(GenerateEcdhKey(rng, backend).1.scalar) == rng.x25519Secret
  {
    Seqs.ReverseInvolutive(rng.x25519Secret);
  }

  /** Ed25519 EdDSA key material: the public point is the native-point tag
      followed by keypair bytes 32..64, the secret is keypair bytes 0..32. */
  function GenerateEddsaKey(rng: Entropy): (r: (PublicParams, PlainSecretParams))
    ensures r.0.EddsaPublic? && r.0.curve == Ed25519
    ensures |r.0.q| == 33 && r.0.q[0] == NativePointTag
    ensures r.0.q[1..] == rng.ed25519Keypair[32..]
    ensures r.1.EddsaSecret? && r.1.seed == rng.ed25519Keypair[..32]
  {
    var bytes := rng.ed25519Keypair;
    var q := [NativePointTag] + bytes[32..];
    assert q[1..] == bytes[32..];
    (EddsaPublic(Ed25519, q), EddsaSecret(bytes[..32]))
  }

  /** The EdDSA secret seed followed by the untagged public point is the keypair encoding. */
  lemma EddsaSplitReassembles(rng: Entropy)
    ensures GenerateEddsaKey(rng).1.seed + GenerateEddsaKey(rng).0.q[1..] == rng.ed25519Keypair
  {
    var kp := rng.ed25519Keypair;
    assert kp[..32] + kp[32..] == kp;
  }

  /** Key material for a key type, from the generator of its algorithm;
      only the RSA prime search can fail. */
  function GenerateMaterial(kt: KeyType, rng: Entropy, backend: Backend): (r: Result<(PublicParams, PlainSecretParams), Error>)
    ensures r.Failure? ==> kt.Rsa?
    ensures r.Success? ==> AlgorithmOf(r.value.0) == ToAlg(kt)
    ensures kt.Rsa? ==> r == GenerateRsaKey(kt.bits, rng)
    ensures kt.ECDH? ==> r == Success(GenerateEcdhKey(rng, backend))
    ensures kt.EdDSA? ==> r == Success(GenerateEddsaKey(rng))
  {
    match kt
    case Rsa(bits) => GenerateRsaKey(bits, rng)
    case ECDH => Success(GenerateEcdhKey(rng, backend))
    case EdDSA => Success(GenerateEddsaKey(rng))
  }

  /** Wraps plain secret parameters: unchanged as `Plain` without a
      passphrase; with one, encrypted under AES-256 with usage octet 254, the
      fresh string-to-key specifier, the default key version and the fresh
      random bytes `nonce`. */
  function Protect(plain: PlainSecretParams, passphrase: Option<string>, s2k: StringToKey, nonce: seq<byte>, backend: Backend): (r: Result<SecretParams, Error>)
    ensures passphrase.None? ==> r == Success(Plain(plain))
    ensures passphrase.Some? ==>
      (r.Success? <==> backend.encrypt(nonce, plain, passphrase.value, SecretKeyCipher, s2k, DefaultKeyVersion, Sha1ChecksumUsage).Success?)
    ensures passphrase.Some? && r.Success? ==>
      && r.value.Encrypted?
      && r.value.encrypted.ciphertext == backend.encrypt(nonce, plain, passphrase.value, SecretKeyCipher, s2k, DefaultKeyVersion, Sha1ChecksumUsage).value
      && r.value.encrypted.encryptionAlgorithm == SecretKeyCipher
      && r.value.encrypted.stringToKeyId == Sha1ChecksumUsage
      && r.value.encrypted.stringToKey == s2k
      && r.value.encrypted.version == DefaultKeyVersion
  {
    match passphrase
    case None => Success(Plain(plain))
    case Some(pw) =>
      var ct :- backend.encrypt(nonce, plain, pw, SecretKeyCipher, s2k, DefaultKeyVersion, Sha1ChecksumUsage);
      Success(Encrypted(EncryptedSecretParams(ct, SecretKeyCipher, s2k, DefaultKeyVersion, Sha1ChecksumUsage)))
  }

  /** Public parameters and protected secret parameters for a key type. The
      public parameters belong to the key type's algorithm; the secret is
      left in the clear exactly when no passphrase is given; only the RSA
      prime search and the encryption can make the call fail. */
  function Generate(kt: KeyType, passphrase: Option<string>, rng: Entropy, backend: Backend): (r: Result<(PublicParams, SecretParams), Error>)
    ensures r.Failure? ==> kt.Rsa? || passphrase.Some?
    ensures r.Success? ==> AlgorithmOf(r.value.0) == ToAlg(kt)
    ensures r.Success? ==> (r.value.1.Plain? <==> passphrase.None?)
    ensures r.Success? && passphrase.Some? ==>
      r.value.1.encrypted.encryptionAlgorithm == SecretKeyCipher && r.value.1.encrypted.stringToKeyId == Sha1ChecksumUsage
    ensures r.Success? <==>
      && GenerateMaterial(kt, rng, backend).Success?
      && Protect(GenerateMaterial(kt, rng, backend).value.1, passphrase, rng.s2k, rng.encryptionNonce, backend).Success?
    ensures r.Success? ==>
      && r.value.0 == GenerateMaterial(kt, rng, backend).value.0
      && r.value.1 == Protect(GenerateMaterial(kt, rng, backend).value.1, passphrase, rng.s2k, rng.encryptionNonce, backend).value
  {
    var material :- GenerateMaterial(kt, rng, backend);
    var secret :- Protect(material.1, passphrase, rng.s2k, rng.encryptionNonce, backend);
    Success((material.0, secret))
  }

  /** Without a passphrase the generated secret is the generator's plain secret, unchanged. */
  lemma PlainSecretUnchanged(kt: KeyType, rng: Entropy, backend: Backend)
    requires GenerateMaterial(kt, rng, backend).Success?
    ensures Generate(kt, None, rng, backend).Success?
    ensures Generate(kt, None, rng, backend).value.1 == Plain(GenerateMaterial(kt, rng, backend).value.1)
  {
  }

  /** Curve public buffers are always 33 bytes led by the native-point tag. */
  lemma CurvePublicLayout(kt: KeyType, passphrase: Option<string>, rng: Entropy, backend: Backend)
    requires !kt.Rsa?
    requires Generate(kt, passphrase, rng, backend).Success?
    ensures var pp := Generate(kt, passphrase, rng, backend).value.0;
      (pp.EcdhPublic? ==> |pp.p| == 33 && pp.p[0] == NativePointTag)
      && (pp.EddsaPublic? ==> |pp.q| == 33 && pp.q[0] == NativePointTag)
      && (pp.EcdhPublic? || pp.EddsaPublic?)
  {
  }
}

=== FILE: params.dfy ===
/** Key and subkey configurations and their builders. A builder holds every
    field as optional; finalising it checks the primary-key policy, requires
    the mandatory fields and fills in defaults. The subkey builder has no
    policy check. */
module Params {
  import opened Wrappers
  import opened Types
  import opened KeyGen

  /** A finalised subkey configuration. */
  datatype SubkeyParams = SubkeyParams(
    keyType: KeyType,
    canSign: bool,
    canCreateCertificates: bool,
    canEncrypt: bool,
    userIds: seq<UserId>,
    userAttributes: seq<UserAttribute>,
    passphrase: Option<string>,
    createdAt: Timestamp,
    packetVersion: PacketVersion,
    version: KeyVersion,
    expiration: Option<Duration>)

  /** A finalised primary-key configuration. */
  datatype SecretKeyParams = SecretKeyParams(
    keyType: KeyType,
    canSign: bool,
    canCreateCertificates: bool,
    canEncrypt: bool,
    preferredSymmetricAlgorithms: seq<SymmetricKeyAlgorithm>,
    preferredHashAlgorithms: seq<HashAlgorithm>,
    preferredCompressionAlgorithms: seq<CompressionAlgorithm>,
    revocationKey: Option<RevocationKey>,
    primaryUserId: string,
    userIds: seq<string>,
    userAttributes: seq<UserAttribute>,
    passphrase: Option<string>,
    createdAt: Timestamp,
    packetVersion: PacketVersion,
    version: KeyVersion,
    expiration: Option<Duration>,
    subkeys: seq<SubkeyParams>)

  /** A primary-key configuration under construction: `None` means unset. */
  datatype SecretKeyParamsBuilder = SecretKeyParamsBuilder(
    keyType: Option<KeyType>,
    canSign: Option<bool>,
    canCreateCertificates: Option<bool>,
    canEncrypt: Option<bool>,
    preferredSymmetricAlgorithms: Option<seq<SymmetricKeyAlgorithm>>,
    preferredHashAlgorithms: Option<seq<HashAlgorithm>>,
    preferredCompressionAlgorithms: Option<seq<CompressionAlgorithm>>,
    revocationKey: Option<Option<RevocationKey>>,
    primaryUserId: Option<string>,
    userIds: Option<seq<string>>,
    userAttributes: Option<seq<UserAttribute>>,
    passphrase: Option<Option<string>>,
    createdAt: Option<Timestamp>,
    packetVersion: Option<PacketVersion>,
    version: Option<KeyVersion>,
    expiration: Option<Option<Duration>>,
    subkeys: Option<seq<SubkeyParams>>)

  /** A subkey configuration under construction. */
  datatype SubkeyParamsBuilder = SubkeyParamsBuilder(
    keyType: Option<KeyType>,
    canSign: Option<bool>,
    canCreateCertificates: Option<bool>,
    canEncrypt: Option<bool>,
    userIds: Option<seq<UserId>>,
    userAttributes: Option<seq<UserAttribute>>,
    passphrase: Option<Option<string>>,
    createdAt: Option<Timestamp>,
    packetVersion: Option<PacketVersion>,
    version: Option<KeyVersion>,
    expiration: Option<Option<Duration>>)

  /** A subkey builder with no field set. */
  const EmptySubkeyBuilder := SubkeyParamsBuilder(
    None, None, None, None, None, None, None, None, None, None, None)

  /** The smallest RSA modulus size accepted, in bits. */
  const MinRsaBits := 2048

  const WeakRsaMessage := "Keys with less than 2048bits are considered insecure"
  const EddsaEncryptMessage := "EdDSA can only be used for signing keys"
  const EcdhSignMessage := "ECDH can only be used for encryption keys"

  /** The three configurations the policy forbids: RSA below 2048 bits,
      EdDSA asked to encrypt, ECDH asked to sign. */
  predicate Forbidden(kt: KeyType, canSign: bool, canEncrypt: bool) {
    || (kt.Rsa? && kt.bits < MinRsaBits)
    || (kt == KeyType.EdDSA && canEncrypt)
    || (kt == KeyType.ECDH && canSign)
  }

  /** The builder's policy check. It rejects exactly a set key type that,
      with the capabilities explicitly set to true, is forbidden; an unset
      key type and unset capabilities are accepted. */
  function Validate(b: SecretKeyParamsBuilder): (r: Result<(), Error>)
    ensures r.Failure? <==> b.keyType.Some? && Forbidden(b.keyType.value, b.canSign == Some(true), b.canEncrypt == Some(true))
    ensures r.Failure? ==> r.error.ValidationError?
  {
    match b.keyType
    case Some(Rsa(size)) =>
      if size < MinRsaBits then Failure(ValidationError(WeakRsaMessage)) else Success(())
    case Some(EdDSA) =>
      if b.canEncrypt == Some(true) then Failure(ValidationError(EddsaEncryptMessage)) else Success(())
    case Some(ECDH) =>
      if b.canSign == Some(true) then Failure(ValidationError(EcdhSignMessage)) else Success(())
    case None => Success(())
  }

  /** The user ids set so far. */
  function UserIdsOf(b: SecretKeyParamsBuilder): seq<string> {
    b.userIds.GetOr([])
  }

  /** The subkey configurations set so far. */
  function SubkeysOf(b: SecretKeyParamsBuilder): seq<SubkeyParams> {
    b.subkeys.GetOr([])
  }

  /** Appends a user id after the ones already present (starting the list
      if there is none); no other field changes. */
  function AddUserId(b: SecretKeyParamsBuilder, v: string): (r: SecretKeyParamsBuilder)
    ensures r.userIds.Some?
    ensures |UserIdsOf(r)| == |UserIdsOf(b)| + 1
    ensures UserIdsOf(b) <= UserIdsOf(r) && UserIdsOf(r)[|UserIdsOf(b)|] == v
    ensures r.(userIds := b.userIds) == b
  {
    match b.userIds
    case Some(ids) => b.(userIds := Some(ids + [v]))
    case None => b.(userIds := Some([v]))
  }

  /** Appends a subkey configuration after the ones already present; no
      other field changes. */
  function AddSubkey(b: SecretKeyParamsBuilder, v: SubkeyParams): (r: SecretKeyParamsBuilder)
    ensures r.subkeys.Some?
    ensures |SubkeysOf(r)| == |SubkeysOf(b)| + 1
    ensures SubkeysOf(b) <= SubkeysOf(r) && SubkeysOf(r)[|SubkeysOf(b)|] == v
    ensures r.(subkeys := b.subkeys) == b
  {
    match b.subkeys
    case Some(ks) => b.(subkeys := Some(ks + [v]))
    case None => b.(subkeys := Some([v]))
  }

  /** A sequence of user-id additions, applied left to right. */
  function AddUserIds(b: SecretKeyParamsBuilder, vs: seq<string>): SecretKeyParamsBuilder
    decreases |vs|
  {
    if |vs| == 0 then b else AddUserIds(AddUserId(b, vs[0]), vs[1..])
  }

  /** A sequence of subkey additions, applied left to right. */
  function AddSubkeys(b: SecretKeyParamsBuilder, vs: seq<SubkeyParams>): SecretKeyParamsBuilder
    decreases |vs|
  {
    if |vs| == 0 then b else AddSubkeys(AddSubkey(b, vs[0]), vs[1..])
  }

  /** Adding user ids one at a time collects them in call order after the
      existing ones and leaves every other field alone. */
  lemma {:induction false} AddUserIdsAppends(b: SecretKeyParamsBuilder, vs: seq<string>)
    ensures UserIdsOf(AddUserIds(b, vs)) == UserIdsOf(b) + vs
    ensures AddUserIds(b, vs).(userIds := b.userIds) == b
    decreases |vs|
  {
    if |vs| > 0 {
      var b' := AddUserId(b, vs[0]);
      assert UserIdsOf(b') == UserIdsOf(b) + [vs[0]];
      AddUserIdsAppends(b', vs[1..]);
      assert UserIdsOf(b) + [vs[0]] + vs[1..] == UserIdsOf(b) + vs;
    }
  }

  /** Adding subkey configurations one at a time collects them in call
      order after the existing ones and leaves every other field alone. */
  lemma {:induction false} AddSubkeysAppends(b: SecretKeyParamsBuilder, vs: seq<SubkeyParams>)
    ensures SubkeysOf(AddSubkeys(b, vs)) == SubkeysOf(b) + vs
    ensures AddSubkeys(b, vs).(subkeys := b.subkeys) == b
    decreases |vs|
  {
    if |vs| > 0 {
      var b' := AddSubkey(b, vs[0]);
      assert SubkeysOf(b') == SubkeysOf(b) + [vs[0]];
      AddSubkeysAppends(b', vs[1..]);
      assert SubkeysOf(b) + [vs[0]] + vs[1..] == SubkeysOf(b) + vs;
    }
  }

  /** Finalises a primary-key builder: the policy check first, then the two
      mandatory fields (key type, primary user id) in declaration order,
      then defaults for the rest — no capabilities, empty lists, no
      revocation key, no passphrase, creation at `now`, default versions,
      no expiration, no subkeys. */
  function Build(b: SecretKeyParamsBuilder, now: Timestamp): (r: Result<SecretKeyParams, Error>)
    ensures Validate(b).Failure? ==> r == Failure(Validate(b).error)
    ensures Validate(b).Success? && b.keyType.None? ==> r == Failure(UninitializedField("key_type"))
    ensures Validate(b).Success? && b.keyType.Some? && b.primaryUserId.None? ==> r == Failure(UninitializedField("primary_user_id"))
    ensures r.Success? <==> Validate(b).Success? && b.keyType.Some? && b.primaryUserId.Some?
    ensures r.Success? ==>
      && r.value.keyType == b.keyType.value
      && r.value.primaryUserId == b.primaryUserId.value
      && r.value.userIds == UserIdsOf(b)
      && r.value.subkeys == SubkeysOf(b)
      && (r.value.canSign <==> b.canSign == Some(true))
      && (r.value.canEncrypt <==> b.canEncrypt == Some(true))
      && (r.value.canCreateCertificates <==> b.canCreateCertificates == Some(true))
      && (if b.preferredSymmetricAlgorithms.Some? then r.value.preferredSymmetricAlgorithms == b.preferredSymmetricAlgorithms.value else r.value.preferredSymmetricAlgorithms == [])
      && (if b.preferredHashAlgorithms.Some? then r.value.preferredHashAlgorithms == b.preferredHashAlgorithms.value else r.value.preferredHashAlgorithms == [])
      && (if b.preferredCompressionAlgorithms.Some? then r.value.preferredCompressionAlgorithms == b.preferredCompressionAlgorithms.value else r.value.preferredCompressionAlgorithms == [])
      && (if b.revocationKey.Some? then r.value.revocationKey == b.revocationKey.value else r.value.revocationKey == None)
      && (if b.passphrase.Some? then r.value.passphrase == b.passphrase.value else r.value.passphrase == None)
      && (if b.createdAt.Some? then r.value.createdAt == b.createdAt.value else r.value.createdAt == now)
      && (if b.packetVersion.Some? then r.value.packetVersion == b.packetVersion.value else r.value.packetVersion == DefaultPacketVersion)
      && (if b.version.Some? then r.value.version == b.version.value else r.value.version == DefaultKeyVersion)
      && (if b.expiration.Some? then r.value.expiration == b.expiration.value else r.value.expiration == None)
      && (if b.userAttributes.Some? then r.value.userAttributes == b.userAttributes.value else r.value.userAttributes == [])
  {
    var _ :- Validate(b);
    if b.keyType.None? then Failure(UninitializedField("key_type"))
    else if b.primaryUserId.None? then Failure(UninitializedField("primary_user_id"))
    else Success(SecretKeyParams(
      keyType := b.keyType.value,
      canSign := b.canSign.GetOr(false),
      canCreateCertificates := b.canCreateCertificates.GetOr(false),
      canEncrypt := b.canEncrypt.GetOr(false),
      preferredSymmetricAlgorithms := b.preferredSymmetricAlgorithms.GetOr([]),
      preferredHashAlgorithms := b.preferredHashAlgorithms.GetOr([]),
      preferredCompressionAlgorithms := b.preferredCompressionAlgorithms.GetOr([]),
      revocationKey := b.revocationKey.GetOr(None),
      primaryUserId := b.primaryUserId.value,
      userIds := b.userIds.GetOr([]),
      userAttributes := b.userAttributes.GetOr([]),
      passphrase := b.passphrase.GetOr(None),
      createdAt := b.createdAt.GetOr(now),
      packetVersion := b.packetVersion.GetOr(DefaultPacketVersion),
      version := b.version.GetOr(DefaultKeyVersion),
      expiration := b.expiration.GetOr(None),
      subkeys := b.subkeys.GetOr([])))
  }

  /** Every finalised primary-key configuration satisfies the policy. */
  lemma BuildEnforcesPolicy(b: SecretKeyParamsBuilder, now: Timestamp)
    requires Build(b, now).Success?
    ensures var p := Build(b, now).value; !Forbidden(p.keyType, p.canSign, p.canEncrypt)
  {
  }

  /** Finalises a subkey builder: only the key type is mandatory and no
      policy is checked. */
  function BuildSubkey(b: SubkeyParamsBuilder, now: Timestamp): (r: Result<SubkeyParams, Error>)
    ensures r.Success? <==> b.keyType.Some?
    ensures r.Failure? ==> r.error == UninitializedField("key_type")
    ensures r.Success? ==>
      && r.value.keyType == b.keyType.value
      && (r.value.canSign <==> b.canSign == Some(true))
      && (r.value.canEncrypt <==> b.canEncrypt == Some(true))
      && (r.value.canCreateCertificates <==> b.canCreateCertificates == Some(true))
      && (if b.userIds.Some? then r.value.userIds == b.userIds.value else r.value.userIds == [])
      && (if b.passphrase.Some? then r.value.passphrase == b.passphrase.value else r.value.passphrase == None)
      && (if b.createdAt.Some? then r.value.createdAt == b.createdAt.value else r.value.createdAt == now)
      && (if b.packetVersion.Some? then r.value.packetVersion == b.packetVersion.value else r.value.packetVersion == DefaultPacketVersion)
      && (if b.version.Some? then r.value.version == b.version.value else r.value.version == DefaultKeyVersion)
      && (if b.expiration.Some? then r.value.expiration == b.expiration.value else r.value.expiration == None)
      && (if b.userAttributes.Some? then r.value.userAttributes == b.userAttributes.value else r.value.userAttributes == [])
  {
    if b.keyType.None? then Failure(UninitializedField("key_type"))
    else Success(SubkeyParams(
      keyType := b.keyType.value,
      canSign := b.canSign.GetOr(false),
      canCreateCertificates := b.canCreateCertificates.GetOr(false),
      canEncrypt := b.canEncrypt.GetOr(false),
      userIds := b.userIds.GetOr([]),
      userAttributes := b.userAttributes.GetOr([]),
      passphrase := b.passphrase.GetOr(None),
      createdAt := b.createdAt.GetOr(now),
      packetVersion := b.packetVersion.GetOr(DefaultPacketVersion),
      version := b.version.GetOr(DefaultKeyVersion),
      expiration := b.expiration.GetOr(None)))
  }

  /** A subkey configuration the primary-key policy forbids still finalises:
      EdDSA with encryption requested. */
  lemma SubkeyBuildAcceptsForbidden(now: Timestamp)
    ensures var b := EmptySubkeyBuilder.(keyType := Some(KeyType.EdDSA), canEncrypt := Some(true));
      && BuildSubkey(b, now).Success?
      && Forbidden(BuildSubkey(b, now).value.keyType, BuildSubkey(b, now).value.canSign, BuildSubkey(b, now).value.canEncrypt)
  {
  }
}

=== FILE: recover.dfy ===
/** Reading unsigned key objects back out of certified ones. Everything a
    key's self-signatures were made from is recoverable from them: user ids
    from the signed users, flags and preferences from the primary user id's
    hashed area, subkey flags from each binding signature. The lemmas show
    that certification loses nothing: recovering a certified object gives
    the object that was certified. */
module Recover {
  import opened Wrappers
  import opened Types
  import opened Flags
  import opened Key
  import opened Certify
  import Seqs

  /** The key details a set of signed details certifies, read from the
      primary user id's first certification; `None` when it does not have
      the shape self-certification produces. */
  function DetailsOf(sd: SignedKeyDetails): Option<KeyDetails> {
    if |sd.users| == 0 || |sd.users[0].signatures| == 0 then None
    else
      var h := sd.users[0].signatures[0].config.hashed;
      if |h| < 6 || !h[2].KeyFlagsSubpacket? || !h[3].PreferredSymmetricAlgorithms?
         || !h[4].PreferredHashAlgorithms? || !h[5].PreferredCompressionAlgorithms? then None
      else
        Some(KeyDetails(
          sd.users[0].id,
          seq(|sd.users| - 1, i requires 0 <= i < |sd.users| - 1 => sd.users[i + 1].id),
          seq(|sd.userAttributes|, i requires 0 <= i < |sd.userAttributes| => sd.userAttributes[i].attr),
          FromOctets(h[2].octets),
          h[3].symAlgs,
          h[4].hashAlgs,
          h[5].compAlgs,
          if |h| > 6 && h[6].RevocationKeySubpacket? then Some(h[6].key) else None))
  }

  /** The flags a subkey's first binding signature grants it. */
  function BoundFlags(signatures: seq<Signature>): Option<KeyFlags> {
    if |signatures| == 0 then None
    else
      var h := signatures[0].config.hashed;
      if |h| < 2 || !h[1].KeyFlagsSubpacket? then None else Some(FromOctets(h[1].octets))
  }

  function PublicSubkeyOf(sk: SignedPublicSubKey): Option<PublicSubkey> {
    var keyflags :- BoundFlags(sk.signatures);
    Some(PublicSubkey(sk.key, keyflags))
  }

  function SecretSubkeyOf(sk: SignedSecretSubKey): Option<SecretSubkey> {
    var keyflags :- BoundFlags(sk.signatures);
    Some(SecretSubkey(sk.key, keyflags))
  }

  function PublicKeyOf(spk: SignedPublicKey): Option<PublicKey> {
    var details :- DetailsOf(spk.details);
    var publicSubkeys :- Seqs.CollectOption(spk.publicSubkeys, PublicSubkeyOf);
    Some(PublicKey(spk.primaryKey, details, publicSubkeys))
  }

  function SecretKeyOf(ssk: SignedSecretKey): Option<SecretKey> {
    var details :- DetailsOf(ssk.details);
    var publicSubkeys :- Seqs.CollectOption(ssk.publicSubkeys, PublicSubkeyOf);
    var secretSubkeys :- Seqs.CollectOption(ssk.secretSubkeys, SecretSubkeyOf);
    Some(SecretKey(ssk.primaryKey, details, publicSubkeys, secretSubkeys))
  }

  /** The user-attribute signing routine returns the attribute it signed. */
  predicate AttributesKept(d: KeyDetails, key: SecretKeyPacket, keyPw: string, s: Signing) {
    forall i :: 0 <= i < |d.userAttributes| && s.signAttribute(key, keyPw, d.userAttributes[i]).Success? ==>
      s.signAttribute(key, keyPw, d.userAttributes[i]).value.attr == d.userAttributes[i]
  }

  /** Certified key details give back the details that were certified:
      primary user id, additional user ids in order, attributes, flags,
      preferences and revocation key. */
  lemma DetailsRoundTrip(d: KeyDetails, key: SecretKeyPacket, keyPw: string, now: Timestamp, s: Signing)
    requires CanIssue(s, key)
    requires SignKeyDetails(d, key, keyPw, now, s).Success?
    requires AttributesKept(d, key, keyPw, s)
    ensures DetailsOf(SignKeyDetails(d, key, keyPw, now, s).value) == Some(d)
  {
    var sd := SignKeyDetails(d, key, keyPw, now, s).value;
    SignedDetailsSubpackets(d, key, keyPw, now, s);
    OctetsRoundTrip(d.keyflags);
    var h := sd.users[0].signatures[0].config.hashed;
    assert h[2] == KeyFlagsSubpacket(Octets(d.keyflags));
    var rd := DetailsOf(sd).value;
    assert rd.userIds == d.userIds;
    assert rd.userAttributes == d.userAttributes;
  }

  lemma PublicSubkeyRoundTrip(k: PublicSubkey, key: SecretKeyPacket, keyPw: string, now: Timestamp, s: Signing)
    requires CanIssue(s, key)
    requires SignPublicSubkey(k, key, keyPw, now, s).Success?
    ensures PublicSubkeyOf(SignPublicSubkey(k, key, keyPw, now, s).value) == Some(k)
  {
    OctetsRoundTrip(k.keyflags);
  }

  lemma SecretSubkeyRoundTrip(k: SecretSubkey, key: SecretKeyPacket, keyPw: string, now: Timestamp, s: Signing)
    requires CanIssue(s, key)
    requires SignSecretSubkey(k, key, keyPw, now, s).Success?
    ensures SecretSubkeyOf(SignSecretSubkey(k, key, keyPw, now, s).value) == Some(k)
  {
    OctetsRoundTrip(k.keyflags);
  }

  /** A certified public key gives back the public key that was certified. */
  lemma PublicKeyRoundTrip(pk: PublicKey, secKey: SecretKeyPacket, keyPw: string, now: Timestamp, s: Signing)
    requires CanIssue(s, secKey)
    requires SignPublicKey(pk, secKey, keyPw, now, s).Success?
    requires AttributesKept(pk.details, secKey, keyPw, s)
    ensures PublicKeyOf(SignPublicKey(pk, secKey, keyPw, now, s).value) == Some(pk)
  {
    var spk := SignPublicKey(pk, secKey, keyPw, now, s).value;
    DetailsRoundTrip(pk.details, secKey, keyPw, now, s);
    forall i | 0 <= i < |pk.publicSubkeys|
      ensures PublicSubkeyOf(spk.publicSubkeys[i]) == Some(pk.publicSubkeys[i])
    {
      PublicSubkeyRoundTrip(pk.publicSubkeys[i], secKey, keyPw, now, s);
    }
    var subs := Seqs.CollectOption(spk.publicSubkeys, PublicSubkeyOf);
    assert subs.value == pk.publicSubkeys;
  }

  /** A certified secret key gives back the secret key that was certified. */
  lemma SecretKeyRoundTrip(sk: SecretKey, keyPw: string, now: Timestamp, s: Signing)
    requires CanIssue(s, sk.primaryKey)
    requires SignSecretKey(sk, keyPw, now, s).Success?
    requires AttributesKept(sk.details, sk.primaryKey, keyPw, s)
    ensures SecretKeyOf(SignSecretKey(sk, keyPw, now, s).value) == Some(sk)
  {
    var ssk := SignSecretKey(sk, keyPw, now, s).value;
    DetailsRoundTrip(sk.details, sk.primaryKey, keyPw, now, s);
    forall i | 0 <= i < |sk.publicSubkeys|
      ensures PublicSubkeyOf(ssk.publicSubkeys[i]) == Some(sk.publicSubkeys[i])
    {
      PublicSubkeyRoundTrip(sk.publicSubkeys[i], sk.primaryKey, keyPw, now, s);
    }
    forall i | 0 <= i < |sk.secretSubkeys|
      ensures SecretSubkeyOf(ssk.secretSubkeys[i]) == Some(sk.secretSubkeys[i])
    {
      SecretSubkeyRoundTrip(sk.secretSubkeys[i], sk.primaryKey, keyPw, now, s);
    }
    var pubs := Seqs.CollectOption(ssk.publicSubkeys, PublicSubkeyOf);
    assert pubs.value == sk.publicSubkeys;
    var secs := Seqs.CollectOption(ssk.secretSubkeys, SecretSubkeyOf);
    assert secs.value == sk.secretSubkeys;
  }
}

=== FILE: seqs.dfy ===
/** Sequence combinators the key code relies on: mapping a fallible operation
    over a list with all-or-nothing semantics, and reversing a byte string. */
module Seqs {
  import opened Wrappers

  /** `k` is the position of the first element on which `f` fails, `f`
      being told each element's position counted from `first`. */
  ghost predicate FirstFailure<A, B, E>(xs: seq<A>, f: (nat, A) -> Result<B, E>, first: nat, k: int)
  {
    && 0 <= k < |xs|
    && f(first + k, xs[k]).Failure?
    && forall j :: 0 <= j < k ==> f(first + j, xs[j]).Success?
  }

  /** Applies `f` to every element with its position counted from `first`,
      front to back, and stops at the first failure. Either every output is
      produced, in input order, or the error of the earliest failing element
      is reported and no partial list survives. */
  function CollectMapFrom<A, B, E>(xs: seq<A>, f: (nat, A) -> Result<B, E>, first: nat): (r: Result<seq<B>, E>)
    ensures r.Success? <==> forall i :: 0 <= i < |xs| ==> f(first + i, xs[i]).Success?
    ensures r.Success? ==> |r.value| == |xs|
    ensures r.Success? ==> forall i :: 0 <= i < |xs| ==> r.value[i] == f(first + i, xs[i]).value
    ensures r.Failure? ==> exists k :: FirstFailure(xs, f, first, k) && r.error == f(first + k, xs[k]).error
    decreases |xs|
  {
    if |xs| == 0 then
      Success([])
    else
      match f(first, xs[0])
      case Failure(e) =>
        assert FirstFailure(xs, f, first, 0);
        Failure(e)
      case Success(y) =>
        match CollectMapFrom(xs[1..], f, first + 1)
        case Failure(e) =>
          assert exists k :: FirstFailure(xs, f, first, k) && e == f(first + k, xs[k]).error by {
            var k :| FirstFailure(xs[1..], f, first + 1, k) && e == f(first + 1 + k, xs[1..][k]).error;
            assert FirstFailure(xs, f, first, k + 1);
          }
          Failure(e)
        case Success(ys) =>
          Success([y] + ys)
  }

  /** The behaviour of collecting an iterator of results into a result of a
      vector: `CollectMapFrom` with an `f` that ignores positions. */
  function CollectMap<A, B, E>(xs: seq<A>, f: A -> Result<B, E>): (r: Result<seq<B>, E>)
    ensures r.Success? <==> forall i :: 0 <= i < |xs| ==> f(xs[i]).Success?
    ensures r.Success? ==> |r.value| == |xs|
    ensures r.Success? ==> forall i :: 0 <= i < |xs| ==> r.value[i] == f(xs[i]).value
    ensures r.Failure? ==> exists k :: 0 <= k < |xs| && f(xs[k]).Failure? && r.error == f(xs[k]).error
                                       && forall j :: 0 <= j < k ==> f(xs[j]).Success?
  {
    var g := (_: nat, x: A) => f(x);
    var r := CollectMapFrom(xs, g, 0);
    assert r.Failure? ==> exists k :: 0 <= k < |xs| && f(xs[k]).Failure? && r.error == f(xs[k]).error
                                      && forall j :: 0 <= j < k ==> f(xs[j]).Success? by {
      if r.Failure? {
        var k :| FirstFailure(xs, g, 0, k) && r.error == g(k, xs[k]).error;
        assert forall j :: 0 <= j < k ==> g(j, xs[j]) == f(xs[j]);
      }
    }
    r
  }

  /** The `Option` counterpart of `CollectMap`: every element must yield a
      value, and the values are kept in input order. */
  function CollectOption<A, B>(xs: seq<A>, f: A -> Option<B>): (r: Option<seq<B>>)
    ensures r.Some? <==> forall i :: 0 <= i < |xs| ==> f(xs[i]).Some?
    ensures r.Some? ==> |r.value| == |xs|
    ensures r.Some? ==> forall i :: 0 <= i < |xs| ==> r.value[i] == f(xs[i]).value
    decreases |xs|
  {
    if |xs| == 0 then
      Some([])
    else
      match f(xs[0])
      case None => None
      case Some(y) =>
        match CollectOption(xs[1..], f)
        case None => None
        case Some(ys) => Some([y] + ys)
  }

  /** The elements of `s` in the opposite order. */
  function Reverse<T>(s: seq<T>): (r: seq<T>)
    ensures |r| == |s|
    ensures forall i :: 0 <= i < |s| ==> r[i] == s[|s| - 1 - i]
    decreases |s|
  {
    if |s| == 0 then [] else Reverse(s[1..]) + [s[0]]
  }

  /** Reversing twice gives the original sequence back. */
  lemma ReverseInvolutive<T>(s: seq<T>)
    ensures Reverse(Reverse(s)) == s
  {
    var r := Reverse(Reverse(s));
    assert |r| == |s|;
    forall i | 0 <= i < |s|
      ensures r[i] == s[i]
    {
      assert r[i] == Reverse(s)[|s| - 1 - i];
    }
  }
}

=== FILE: types.dfy ===
/** The vocabulary the key code works with: bytes, algorithm identifiers,
    key packets, public and secret parameters, signature subpackets and the
    error kinds. Everything here is plain data. */
module Types {
  import opened Wrappers

  type byte = bv8

  /** A 32-byte string: an x25519 scalar or point, an ed25519 seed or point. */
  type Bytes32 = s: seq<byte> | |s| == 32 witness seq(32, _ => 0)

  /** A 64-byte ed25519 keypair encoding: the secret seed, then the public point. */
  type Bytes64 = s: seq<byte> | |s| == 64 witness seq(64, _ => 0)

  /** An unsigned 16-bit integer. */
  type u16 = x: nat | x < 0x1_0000

  /** A point in time, in seconds. */
  type Timestamp = nat

  /** A length of time; only its whole seconds matter to key generation. */
  datatype Duration = Duration(secs: nat)

  /** Packet header format. */
  datatype PacketVersion = Old | New

  /** The packet format a default-constructed user id carries. */
  const DefaultPacketVersion: PacketVersion := Old

  datatype KeyVersion = V2 | V3 | V4 | V5

  /** The key version handed to secret-key encryption. */
  const DefaultKeyVersion: KeyVersion := V4

  datatype PublicKeyAlgorithm =
    | RSA | RSAEncrypt | RSASign | ElgamalSign | DSA | ECDH | ECDSA | Elgamal | DiffieHellman | EdDSA

  datatype SymmetricKeyAlgorithm =
    | Plaintext | IDEA | TripleDES | CAST5 | Blowfish | AES128 | AES192 | AES256 | Twofish

  datatype HashAlgorithm = MD5 | SHA1 | RIPEMD160 | SHA256 | SHA384 | SHA512 | SHA224

  datatype CompressionAlgorithm = Uncompressed | ZIP | ZLIB | BZip2

  datatype EccCurve = Curve25519 | Ed25519

  /** Error kinds surfaced by key generation and self-certification. */
  datatype Error =
    /** Builder finalisation rejected an insecure or contradictory configuration. */
    | ValidationError(message: string)
    /** A required builder field was never set. */
    | UninitializedField(field: string)
    /** A collaborator (RSA key search, secret-key encryption, signing) failed. */
    | CryptoError(reason: string)

  datatype KeyId = KeyId(bytes: seq<byte>)

  /** A designated revoker: its class octet, algorithm and fingerprint. */
  datatype RevocationKey = RevocationKey(revocationClass: byte, algorithm: PublicKeyAlgorithm, fingerprint: seq<byte>)

  datatype UserId = UserId(packetVersion: PacketVersion, id: string)

  /** A user attribute packet; its contents are not interpreted here. */
  datatype UserAttribute = UserAttribute(packetVersion: PacketVersion, data: seq<byte>)

  /** The packet tag of a user id, which a certification signature covers. */
  datatype Tag = UserIdTag

  /** A string-to-key specifier (hash, salt, iteration count), drawn fresh
      for every encryption; its inner structure is not interpreted here. */
  datatype StringToKey = StringToKey(hash: HashAlgorithm, salt: seq<byte>, count: byte)

  datatype PublicParams =
    | RsaPublic(n: nat, e: nat)
    | EcdhPublic(curve: EccCurve, p: seq<byte>, hash: HashAlgorithm, algSym: SymmetricKeyAlgorithm)
    | EddsaPublic(curve: EccCurve, q: seq<byte>)

  /** The algorithm a public parameter set belongs to. */
  function AlgorithmOf(pp: PublicParams): PublicKeyAlgorithm {
    match pp
    case RsaPublic(_, _) => RSA
    case EcdhPublic(_, _, _, _) => ECDH
    case EddsaPublic(_, _) => EdDSA
  }

  datatype PlainSecretParams =
    | RsaSecret(d: nat, p: nat, q: nat, u: nat)
    | EcdhSecret(scalar: seq<byte>)
    | EddsaSecret(seed: seq<byte>)

  /** The output of the symmetric encryption of a secret parameter set. */
  datatype Ciphertext = Ciphertext(data: seq<byte>, iv: seq<byte>)

  /** A protected secret parameter set with the parameters it was protected under. */
  datatype EncryptedSecretParams = EncryptedSecretParams(
    ciphertext: Ciphertext,
    encryptionAlgorithm: SymmetricKeyAlgorithm,
    stringToKey: StringToKey,
    version: KeyVersion,
    stringToKeyId: byte)

  datatype SecretParams = Plain(plain: PlainSecretParams) | Encrypted(encrypted: EncryptedSecretParams)

  /** The public part of a primary key or subkey packet. */
  datatype KeyPacket = KeyPacket(
    packetVersion: PacketVersion,
    version: KeyVersion,
    algorithm: PublicKeyAlgorithm,
    createdAt: Timestamp,
    expiration: Option<u16>,
    publicParams: PublicParams)

  /** A key packet together with its secret parameters. */
  datatype SecretKeyPacket = SecretKeyPacket(details: KeyPacket, secretParams: SecretParams)

  /** Signature subpackets (section 5.2.3 of RFC 4880) that self-certification emits. */
  datatype Subpacket =
    | SignatureCreationTime(time: Timestamp)
    | IsPrimary(primary: bool)
    /** The key-flags subpacket: its octets. */
    | KeyFlagsSubpacket(octets: seq<byte>)
    | PreferredSymmetricAlgorithms(symAlgs: seq<SymmetricKeyAlgorithm>)
    | PreferredHashAlgorithms(hashAlgs: seq<HashAlgorithm>)
    | PreferredCompressionAlgorithms(compAlgs: seq<CompressionAlgorithm>)
    /** The revocation-key subpacket. */
    | RevocationKeySubpacket(key: RevocationKey)
    | Issuer(keyId: KeyId)
    | IssuerFingerprint(fingerprint: seq<byte>)

  datatype SignatureType = CertGeneric | SubkeyBinding

  /** The signature-type octet (section 5.2.1 of RFC 4880). */
  function TypeCode(t: SignatureType): byte {
    match t
    case CertGeneric => 0x10
    case SubkeyBinding => 0x18
  }

  /** What is fixed before hashing: type, signer algorithm and the two subpacket areas. */
  datatype SignatureConfig = SignatureConfig(
    typ: SignatureType,
    pubAlg: PublicKeyAlgorithm,
    hashed: seq<Subpacket>,
    unhashed: seq<Subpacket>)

  /** What the hash-then-sign primitive returns: the left 16 bits of the hash and the signature values. */
  datatype SigMaterial = SigMaterial(signedHashValue: seq<byte>, values: seq<seq<byte>>)

  datatype Signature = Signature(config: SignatureConfig, material: SigMaterial)
}

=== FILE: wrappers.dfy ===
/** Failure-compatible wrappers used throughout the model: `Option` for values
    that may be absent and `Result` for operations that report an error value
    instead of producing their output. Both work with Dafny's `:-` operator. */
module Wrappers {

  datatype Option<+T> = None | Some(value: T) {

    predicate IsFailure() {
      None?
    }

    function PropagateFailure<U>(): Option<U>
      requires None?
    {
      None
    }

    function Extract(): T
      requires Some?
    {
      value
    }

    /** The carried value, or `default` when there is none. */
    function GetOr(default: T): T {
      match this
      case Some(v) => v
      case None => default
    }
  }

  datatype Result<+T, +E> = Success(value: T) | Failure(error: E) {

    predicate IsFailure() {
      Failure?
    }

    function PropagateFailure<U>(): Result<U, E>
      requires Failure?
    {
      Failure(error)
    }

    function Extract(): T
      requires Success?
    {
      value
    }
  }
}
